=== FILE: README.md ===
# kefir-test-utils in Dafny

A model of the helpers that `createTestHelpers(Kefir)` returns in
kefir-test-utils (`src/index.js`), with proofs of what they promise.

- **Events** (`events.dfy`). The event objects built by `value`, `error`
  and `end` are a closed datatype `Event<P>`. Each event carries a `current`
  flag that defaults to false, and the tags are the constants `VALUE`,
  `ERROR` and `END`. The raw object `{type, value}` that `send` and
  `logItem` read is `RawEvent<P>`, and its tag can be any string. `logItem`
  returns `None` for an unknown tag, because its switch has no default case.
- **Injector** (`injector.dfy`). `send(obs, events)` is a method with a
  loop. It pushes each event in order through the observable's hooks and
  returns the observable. At the first unrecognised tag it stops with a
  `TypeError`, and the pushes already made stay made.
- **Observable** (`observables.dfy`). The observable is abstract:
  - a clock reading;
  - the trace of every push through its hooks;
  - the watchers subscribed with `onAny`, each with its own log.

  A push appends one entry to the log of every watcher that is still
  subscribed.
- **Recorder** (`recorder.dfy`). `watch` and `watchWithTime` add a watcher.
  - What Kefir replays synchronously during `onAny` is logged as current.
  - Everything pushed later is logged as not current.
  - `unwatch` detaches a plain watcher for good.
  - A timed watcher stamps each entry with `now - startTime`.

  A run of steps (pushes, clock advances, subscriptions, unsubscriptions)
  lets the lemmas speak about everything that can happen after a call. The
  clock only moves forward.
- **Timers** (`timers.dfy`). The fake clock's tie-breaker `shakeTimers` is a
  pure function on `map<nat, Timer>`. It sorts the records with the
  four-key comparator, then hands the original ids, in ascending order, to
  the records in sorted order. It also zeroes every creation stamp. The sort
  is an insertion sort. `SortUnique` shows that any correct sort gives the
  same sequence, so the choice of sort does not matter.
- **Scenarios** (`scenarios.dfy`). The behaviours the repository's tests
  exercise, stated over the model.

The payload type `P` stands for any JavaScript value. An `end` event has no
`value` field, so turning an `End` back into a raw object needs the
`undefined` value of `P` as an argument. The clock that `new Date()` reads
is the observable's `now` field.

Where the repository's tests and the code disagree, the model follows the
code:
- **`watchWithTime` return value.** The tests destructure `{log, unwatch}`
  from `watchWithTime` (test/kefir-test-utils.spec.js:172, 183), but the
  code returns the bare log array (src/index.js:161). The model's timed
  watcher therefore has no unwatch handle: `Unwatch` leaves a timed watcher
  subscribed.

## Model

| member | source | states |
|---|---|---|
| Events.LogItem | src/index.js:134-143 | An event is produced exactly when the tag is `value`, `error` or `end`; otherwise the result is undefined. The produced event has the tag's kind and the requested `current` flag, and a value or error keeps the raw payload. |
| Events.LogItemRoundTrip | src/index.js:27-42 | For every event the helpers build, `logItem(e, c)` is `e` with its `current` flag replaced by `c`, so the input's own flag is ignored. The event's kind matches its tag. |
| Events.LogItemInverse | src/index.js:134-143 | For a recognised value or error, encoding `logItem`'s result back gives the same raw object: tag and payload are kept. For an end, `logItem` gives `end({current})`, which drops whatever the raw object held in `value`; it reads back as `undefined`. |
| Events.ConstructorDefaults | src/index.js:27-42 | `value(p)`, `error(p)` and `end()` have `current == false` and carry the tags `VALUE`, `ERROR` and `END` (declared at src/index.js:4-6). The three tags are distinct. |
| Events.CaptureIsLogItem | src/index.js:148 | What a subscriber logs of a push through a hook is `logItem` applied to the event object of that push. |
| Injector.Dispatch | src/index.js:10-22 | A hook call is chosen exactly for the three known tags, and it carries the event's tag. For a value or an error the hook gets the payload unchanged; for an end it is `_emitEnd`, which takes no payload. |
| Injector.DispatchIsLogItem | src/index.js:10-22 | What a watcher logs of the hook call the switch picks is `logItem` of the event object handed to `send`. |
| Injector.FirstUnrecognized | src/index.js:9-22 | Every event before the returned index has a known tag. The event at the index, if there is one, does not. |
| Injector.PushesDispatch | src/index.js:9-19 | A run of known events makes one hook call per event, in input order, each the one the switch picks. |
| Injector.Send | src/index.js:8-25 | `send` returns normally if and only if every tag is known. Either way, exactly the events before the first unknown tag have been pushed, in order, and nothing after it. A throw carries the `TypeError` message. |
| Injector.SendBuiltEvents | src/index.js:8-42 | Events built by `value`/`error`/`end` never make `send` throw, and each pushes its own kind and payload. |
| Injector.SendReachesWatchers | src/index.js:8-25 | After a `send` that returns, every subscribed watcher's log has grown by one entry per event, in order, each `logItem(event, false)`. The old entries are kept. |
| Observables.MakeEntry | src/index.js:148-159 | A watcher's entry holds the event it was handed. A plain watcher logs the bare event. A timed watcher logs the pair of the time elapsed since it started and the event (src/index.js:159). |
| Observables.Notify | src/index.js:148 | A subscribed watcher's callback appends exactly one entry, the not-current capture of the push, and keeps the old entries. An unsubscribed watcher is unchanged, and no watcher changes its kind or subscription. |
| Observables.Deliver | src/index.js:9-19 | Pushing a run appends exactly that run to the trace, leaves the clock alone and adds or drops no watcher. |
| Observables.DeliverNotifies | src/index.js:9-19 | During a run of pushes, each subscribed watcher's log grows by its entries for the run, none current and all stamped at the same instant. An unsubscribed watcher is unchanged. |
| Recorder.Watch | src/index.js:145-153 | `watch` adds a fresh watcher and returns its handle. The new log holds only the replay made during `onAny`, every entry current. Other watchers, the trace and the clock are untouched. |
| Recorder.WatchWithTime | src/index.js:155-162 | `watchWithTime` adds a fresh watcher that starts timing at the current reading. Its replay entries are stamped 0 and current. Other watchers are untouched. |
| Recorder.Unwatch | src/index.js:149 | `unwatch` of a plain watcher detaches it and keeps its log. Any other handle changes nothing: a timed watcher has no unwatch handle. |
| Recorder.Run | src/index.js:145-162 | Over any run of steps, watchers are never removed, the trace only grows and the clock never goes back. |
| Recorder.UnwatchFreezesLog | src/index.js:149 | A detached watcher is never changed again, whatever happens later. |
| Recorder.UnwatchThenRun | src/index.js:149-152 | After `unwatch`, the log never grows and the watcher stays detached. |
| Recorder.ApplyLogsPushes | src/index.js:148 | One step grows a still-subscribed watcher's events by exactly the step's pushes, each not current. |
| Recorder.LogFollowsTrace | src/index.js:146-151 | For a watcher still subscribed after a run, the events logged over the run are `logItem(_, false)` of every push of the run, in push order. |
| Recorder.WatchThenRun | src/index.js:145-153 | A `watch` log, while still subscribed after any run, is the replay made during `onAny`, each entry current, followed by every push of the run in push order, none current. |
| Recorder.ApplyKeepsStamps | src/index.js:156-159 | Every step keeps each timed log well stamped: stamps are non-negative, non-decreasing along the log and never ahead of the clock. Plain logs stay unstamped. |
| Recorder.RunKeepsStamps | src/index.js:156-159 | Under a clock that only moves forward, the stamps of every timed log stay non-negative and non-decreasing along any run. |
| Recorder.RunWithoutTicks | src/index.js:156-159 | A run without clock advances leaves the clock reading unchanged. |
| Recorder.NoTimeNoStamps | src/index.js:156-159 | When no time passes, every entry of a timed watcher that started at the current reading is stamped 0. |
| Timers.Compare | src/index.js:74-101 | The comparator returns -1, 0 or 1. It returns 0 (the `undefined` fall-through) exactly when due time, class, creation stamp and id all tie. |
| Timers.CompareMeansShakesBefore | src/index.js:74-101 | The comparator puts `a` first exactly when `a` is due earlier, or at the same time is immediate against a non-immediate one, or otherwise tied has the larger creation stamp, then the larger id. The comparator is antisymmetric. |
| Timers.ShakesBeforeIsStrictOrder | src/index.js:74-101 | The sort order is irreflexive, asymmetric, transitive and total on timers with distinct ids. |
| Timers.Insert | src/index.js:74 | Inserting into a sorted sequence keeps it sorted and adds exactly the one timer. |
| Timers.Sort | src/index.js:74-101 | The sort returns a permutation of its input that is sorted by the comparator. |
| Timers.SortUnique | src/index.js:74-101 | Two sorted permutations of the same timers are equal, so the JavaScript engine's sort and this one agree. |
| Timers.SortedKeys | src/index.js:103 | The registry's keys as `ids.sort((a, b) => a - b)` leaves them: each key once, strictly ascending. |
| Timers.KeyOrder | src/index.js:70-71 | The registry's records, one per key, with distinct ids, each the registry's record under its own id. They are listed by ascending key; `Object.keys` may list them in another order, which `Timers.ListingOrderIrrelevant` shows does not matter. |
| Timers.ListingOrderIrrelevant | src/index.js:70-74 | Sorting the records in any listing order `Object.keys` may give, with each record once, yields the same sequence as sorting them by ascending key. |
| Timers.ShakeOrder | src/index.js:70-101 | The sorted records are a permutation of the registry's records and are sorted by the comparator. |
| Timers.WriteBack | src/index.js:104-109 | The write-back loop stores the i-th record, with its new id and a zero stamp, under the i-th id. It adds no key, and keys it does not write keep their record. |
| Timers.ShakeTimers | src/index.js:69-110 | After the shake the key set is the same and every timer is stored under its own new id with creation stamp 0. |
| Timers.ShakeWrites | src/index.js:103-109 | The i-th smallest original id now holds the i-th record of the sorted order. |
| Timers.ShakeMovesRecord | src/index.js:104-109 | The timer first stored under `k` now sits under its new key. Only its id and creation stamp changed; due time, class and callback are kept. |
| Timers.NewKeyInjective | src/index.js:103-109 | Distinct timers receive distinct new ids. |
| Timers.NewKeySurjective | src/index.js:103-109 | Every key of the shaken registry is the new id of some original timer, so the records are a permutation of the originals. |
| Timers.ShakeOrderIsSortOrder | src/index.js:74-109 | One timer gets a smaller new id than another if and only if the comparator sorts it first. |
| Timers.ShakeReversesTies | src/index.js:74-108 | A strictly earlier due time gives a smaller new id, and so does being the immediate timer at the same due time. At equal due time and class, the larger creation stamp gives the smaller new id; if the stamps also tie, the larger original id does. |
| Timers.ShakenFiringOrder | src/index.js:62-63 | With every stamp zeroed, the clock's firing order (due time, immediate first, creation stamp, then id) on the shaken registry is exactly the tie-breaker's sort order on the originals. |
| Timers.LastScheduledFiresFirst | src/index.js:62-63 | Of two timers due at the same instant in the same class, the one created later fires second before the shake and first after it. |
| Timers.ShakeTwiceRestoresOrder | src/index.js:64-66 | A second shake with no new timers in between restores the relative firing order the clock had before the first shake. The keys, ids and creation stamps are not restored. |
| Timers.TwoTimerShake | src/index.js:74-109 | In a registry of two timers, exactly one of them sorts first. If it is the one under the larger key, the two keys are exchanged; if it is the one under the smaller key, each keeps its key. |
| Timers.FiresBeforeAsWritten | src/index.js:95-98 | The clock's firing order on the ids the source's shake writes: it agrees with the numeric order except on the final tie, where the ids are compared as strings. |
| Timers.DecimalString | src/index.js:70 | The key string of an integer key is its canonical decimal: all decimal digits that denote the key, no leading zero, and a single digit exactly for keys below 10. |
| Scenarios.WatchLogsSentEvents | test/kefir-test-utils.spec.js:153-158 | Watching a fresh stream and sending `[value(1), error(2), end()]` does not throw and logs exactly those three events. |
| Scenarios.UnwatchedLogStaysEmpty | test/kefir-test-utils.spec.js:160-166 | After `unwatch()`, sending the same events leaves the log empty. |
| Scenarios.TimedLogWithoutTime | test/kefir-test-utils.spec.js:170-179 | A timed watcher that sees the three events with no time passing logs them all stamped 0. |
| Scenarios.SendRejectsUnknownTag | test/kefir-test-utils.spec.js:68-70 | `send(obs, [{type: 'WRONG'}])` stops at the first event and pushes nothing. |
| Scenarios.SimultaneousTimeoutsReversed | test/kefir-test-utils.spec.js:104-126 | Two timeouts created at the same instant with the same delay, ids 1 and 2, swap ids under the shake. The one created second then holds id 1 and fires first. |
| Scenarios.SwappedIds | src/index.js:88-108 | In a two-timer registry under any two keys, a tie on due time, class and creation stamp exchanges the two ids. |
| Scenarios.LaterMovesDown | src/index.js:88-108 | Of two tied timers under keys 9 and 10, the later-created one ends under 9 and the other under 10, with nothing else changed but id and stamp. |
| Scenarios.TenBeforeNine | src/index.js:70 | The key strings of 10 and 9 are "10" and "9", and under JavaScript's string `<`, "10" comes first. |
| Scenarios.StringIdsBreakReversal | src/index.js:70-109 | For timeouts due together under keys 9 and 10, the one under 10 created later: with numeric ids the later one fires first. With the string ids the source writes, the earlier one fires first. |

## Left out

- `withFakeTime` (src/index.js:112-132): it installs, ticks and uninstalls the lolex clock, which is not part of this model. Besides that, it does two things. When `reverseSimultaneous` is set, it shakes before each tick, which is `ShakeTimers` followed by the clock's firing order `FiresBefore`, standing in for lolex's own ordering. It also catches a failure of the callback, uninstalls the clock and rethrows only `if (error)` (src/index.js:121-130). A callback that throws a falsy value (`undefined`, `null`, `0`, `''`, `false`) therefore has its failure dropped, and `withFakeTime` returns normally. This error handling is not modelled.
- `activate`, `deactivate`, `prop`, `stream`, `pool` (src/index.js:44-60): each is a single call into a Kefir constructor or subscription, and Kefir is not part of this model.
- Kefir's subscription internals, including how an observable behaves after it ends. Kefir ignores pushes after `end` and drops its subscribers. The model delivers every push to every watcher still subscribed, so `send(obs, [end(), value(1)])` logs both events in the model, where Kefir would log only `end()`.
- The events that `onAny` replays synchronously on subscription (a property's current value) are a parameter of `Watch` and `WatchWithTime`. Nothing else about Kefir's dispatch is modelled.
- The clock read by `new Date()` is the observable's `now` field. Time passes only through `Ticked` steps of a run, by a non-negative amount.
- Timers.ShakeTimers: ids stay numbers. In JavaScript, `Object.keys` yields strings, so the shaken timers carry string ids. The model writes numeric ids, which is the corrected shake under "## Findings", and requires every key to equal its timer's id. The string ids appear only in `Timers.FiresBeforeAsWritten`.
- Injector.Send: the `TypeError` message interpolates `typeof event`, which is "object" for every event object. The model uses that fixed message rather than computing `typeof`.
- Timers: `setInterval` timers, whose interaction with the shake the code itself flags as unverified (src/index.js:64-66), are treated like any other timer. Their repetition is not modelled.
- No marble-diagram parser or frame player exists in `src/index.js`, so none is modelled.
- Timers.ShakenFiringOrder: proved for a shake that writes numeric ids (the corrected shake under "## Findings"). With the string ids the source writes, the clock's final id comparison is on strings, and the result can fail when two new ids have different numbers of digits.
- Timers.LastScheduledFiresFirst: proved for the corrected shake with numeric ids. With the source's string ids it fails when the two new ids straddle a digit boundary, as `Scenarios.StringIdsBreakReversal` shows for keys 9 and 10.
- Timers.ShakeTwiceRestoresOrder: proved with numeric ids. In the source, a second shake compares the string ids the first shake wrote (src/index.js:95-98), which the model does not follow. It also restores only the relative firing order, not the keys or creation stamps. The fake-time `tick` shakes before every advance (src/index.js:114-118), so a timer pending across two ticks is shaken twice. The comment at src/index.js:64-66 already names the missing restore, so the model records this as a known limitation rather than a finding.

## Findings

| source | as written | input that shows it | evidently intended | confidence | as-written member | corrected member |
|---|---|---|---|---|---|---|
| src/index.js:70, 103-107 | The shake writes the key strings of `Object.keys` back as the timers' ids. The clock's last tie-break compares ids with `<` (mirrored at src/index.js:95-98), which on strings is lexicographic. | Two timeouts due together in the same class under keys 9 and 10, the one under 10 created later. After the shake the later one holds "9" and the earlier one "10", and "10" < "9", so the earlier one fires first and the reversal is lost. | Numeric ids (`timer.id = Number(id)`), so that the later-scheduled timer fires first for any keys. | not executed; medium, since it rests on the fake clock comparing ids with `<` as the comparator it mirrors does | Scenarios.StringIdsBreakReversal | Timers.LastScheduledFiresFirst |

=== FILE: events.dfy ===
/** The event model of the test helpers: the three emission kinds an
    observable can deliver (value, error, end), the `current` flag that marks
    an emission replayed synchronously at subscription time, and the raw
    `{type, value}` objects the helpers receive from outside. */
module Events {
  import opened Wrappers

  /** The `type` tags of the three kinds, as the helpers export them. */
  const VALUE: string := "value"
  const ERROR: string := "error"
  const END: string := "end"

  /** An event built by the helpers. The payload type P stands for any
      JavaScript value (`undefined` included); `current` defaults to false,
      as in the constructors `value`, `error` and `end`. */
  datatype Event<P> =
    | Value(payload: P, current: bool := false)
    | Error(payload: P, current: bool := false)
    | End(current: bool := false)

  /** An event object as read by `send` and `logItem`: only its `type` tag
      and its `value` field are ever looked at. `payload` is what reading
      the `value` field yields, JavaScript's `undefined` when it is absent. */
  datatype RawEvent<P> = RawEvent(tag: string, payload: P)

  /** One call of an observable's internal push hooks (`_emitValue`,
      `_emitError`, `_emitEnd`); the observable hands its subscribers the
      matching `{type, value}` object. */
  datatype Push<P> = EmitValue(payload: P) | EmitError(payload: P) | EmitEnd

  /** The `type` field of an event. */
  function TypeOf<P>(e: Event<P>): string
  {
    match e
    case Value(_, _) => VALUE
    case Error(_, _) => ERROR
    case End(_) => END
  }

  /** The plain object an event is, seen as a raw event; an End has no
      `value` field, so reading it yields `undefined`. */
  function ToRaw<P>(e: Event<P>, undefined: P): RawEvent<P>
  {
    match e
    case Value(p, _) => RawEvent(VALUE, p)
    case Error(p, _) => RawEvent(ERROR, p)
    case End(_) => RawEvent(END, undefined)
  }

  /** The object a subscriber receives for a push. */
  function PushedObject<P>(p: Push<P>, undefined: P): RawEvent<P>
  {
    match p
    case EmitValue(v) => RawEvent(VALUE, v)
    case EmitError(v) => RawEvent(ERROR, v)
    case EmitEnd => RawEvent(END, undefined)
  }

  /** Whether a `type` tag is one of the three the helpers know. */
  predicate Recognized<P>(r: RawEvent<P>)
  {
    r.tag == VALUE || r.tag == ERROR || r.tag == END
  }

  /** `logItem(event, current)`: rebuilds the event with the constructor of
      its kind and the given `current` flag. The switch has no default, so an
      unrecognised tag yields `undefined`, here None. */
  function LogItem<P>(r: RawEvent<P>, current: bool): (e: Option<Event<P>>)
    ensures e.Some? <==> Recognized(r)
    ensures e.Some? ==> TypeOf(e.value) == r.tag && e.value.current == current
    ensures e.Some? && !e.value.End? ==> e.value.payload == r.payload
  {
    if r.tag == VALUE then Some(Value(r.payload, current))
    else if r.tag == ERROR then Some(Error(r.payload, current))
    else if r.tag == END then Some(End(current))
    else None
  }

  /** What a watcher records for a push: `logItem` of the object the
      observable hands over. */
  function Capture<P>(p: Push<P>, current: bool): Event<P>
  {
    match p
    case EmitValue(v) => Value(v, current)
    case EmitError(v) => Error(v, current)
    case EmitEnd => End(current)
  }

  /** `logItem(k(p, {current: c'}), c) == k(p, {current: c})` for each kind k:
      the input's own flag is ignored and nothing else is lost. */
  lemma LogItemRoundTrip<P>(e: Event<P>, current: bool, undefined: P)
    ensures LogItem(ToRaw(e, undefined), current) == Some(e.(current := current))
    ensures TypeOf(e) == ToRaw(e, undefined).tag
  {
  }

  /** The other direction: a recognised value or error is the encoding of
      what `logItem` makes of it, for every choice of the flag. An end is
      rebuilt by `end({current})`, which has no `value` field: whatever the
      raw object carried there is dropped, and reads back as `undefined`. */
  lemma LogItemInverse<P>(r: RawEvent<P>, current: bool, undefined: P)
    requires Recognized(r)
    ensures r.tag != END ==> ToRaw(LogItem(r, current).value, undefined) == r
    ensures r.tag == END ==> LogItem(r, current) == Some(End(current))
    ensures r.tag == END ==> ToRaw(LogItem(r, current).value, undefined) == RawEvent(END, undefined)
  {
  }

  /** The constructors' defaults: `value(p)`, `error(p)` and `end()` are not
      current, and each carries the tag of its kind. */
  lemma ConstructorDefaults<P>(p: P)
    ensures !Value(p).current && !Error(p).current && !Event<P>.End().current
    ensures TypeOf(Value(p)) == VALUE && TypeOf(Error(p)) == ERROR && TypeOf(Event<P>.End()) == END
    ensures VALUE != ERROR && ERROR != END && END != VALUE
  {
  }

  /** A watcher's capture of a push is `logItem` of the pushed object. */
  lemma CaptureIsLogItem<P>(p: Push<P>, current: bool, undefined: P)
    ensures LogItem(PushedObject(p, undefined), current) == Some(Capture(p, current))
  {
  }
}

=== FILE: injector.dfy ===
/** The injector `send(obs, events)`: pushes each event, in order, through
    the observable's internal hooks by its `type` tag, and throws a
    `TypeError` at the first event whose tag it does not recognise. */
module Injector {
  import opened Wrappers
  import opened Events
  import opened Observables

  /** The message of the `TypeError`; the source reports `typeof event`,
      which is "object" for every event object. */
  const SEND_TYPE_ERROR: string := "chai-kefir :: send :: Expected event object, received object"

  /** How `send` ends: it returns the observable, or it throws after the
      pushes made so far, which stay made. */
  datatype SendResult<P> = Returned(obs: Observable<P>) | TypeError(message: string, obs: Observable<P>)

  /** The switch on `event.type`: the hook to call, or None for the default
      branch that throws. */
  function Dispatch<P>(r: RawEvent<P>): (p: Option<Push<P>>)
    ensures p.Some? <==> Recognized(r)
    ensures p.Some? && r.tag != END ==> !p.value.EmitEnd? && p.value.payload == r.payload
    ensures p.Some? ==> PushedObject(p.value, r.payload).tag == r.tag
    ensures r.tag == END ==> p == Some(EmitEnd)
  {
    if r.tag == VALUE then Some(EmitValue(r.payload))
    else if r.tag == ERROR then Some(EmitError(r.payload))
    else if r.tag == END then Some(EmitEnd)
    else None
  }

  /** What a watcher logs of the hook call the switch picks is `logItem` of
      the event object handed to `send`. */
  lemma DispatchIsLogItem<P>(r: RawEvent<P>, current: bool)
    requires Recognized(r)
    ensures LogItem(r, current) == Some(Capture(Dispatch(r).value, current))
  {
  }

  /** The index of the first event with an unrecognised tag, or the number
      of events when every tag is recognised. */
  function FirstUnrecognized<P>(events: seq<RawEvent<P>>): (k: nat)
    ensures k <= |events|
    ensures forall i :: 0 <= i < k ==> Recognized(events[i])
    ensures k < |events| ==> !Recognized(events[k])
  {
    if events == [] then 0
    else if !Recognized(events[0]) then 0
    else 1 + FirstUnrecognized(events[1..])
  }

  /** The first unrecognised tag after a recognised run is the one `send`
      stops at. */
  lemma {:induction false} StopsAt<P>(events: seq<RawEvent<P>>, i: nat)
    requires i < |events| && !Recognized(events[i])
    requires forall j :: 0 <= j < i ==> Recognized(events[j])
    ensures FirstUnrecognized(events) == i
    decreases i
  {
    if i > 0 {
      assert Recognized(events[0]);
      StopsAt(events[1..], i - 1);
    }
  }

  /** The hook calls a run of recognised events makes, one per event. */
  function Pushes<P>(events: seq<RawEvent<P>>): (ps: seq<Push<P>>)
    requires forall i :: 0 <= i < |events| ==> Recognized(events[i])
    ensures |ps| == |events|
  {
    if events == [] then [] else [Dispatch(events[0]).value] + Pushes(events[1..])
  }

  /** Each hook call is the one the switch picks for its event. */
  lemma {:induction false} PushesDispatch<P>(events: seq<RawEvent<P>>)
    requires forall i :: 0 <= i < |events| ==> Recognized(events[i])
    ensures forall i :: 0 <= i < |events| ==> Dispatch(events[i]) == Some(Pushes(events)[i])
    decreases |events|
  {
    if events != [] {
      PushesDispatch(events[1..]);
      forall i | 1 <= i < |events|
        ensures Dispatch(events[i]) == Some(Pushes(events)[i])
      {
        assert events[1..][i - 1] == events[i];
      }
    }
  }

  /** The hook calls of a run followed by one more recognised event. */
  lemma {:induction false} PushesAppend<P>(events: seq<RawEvent<P>>, e: RawEvent<P>)
    requires forall i :: 0 <= i < |events| ==> Recognized(events[i])
    requires Recognized(e)
    ensures Pushes(events + [e]) == Pushes(events) + [Dispatch(e).value]
    decreases |events|
  {
    if events != [] {
      assert (events + [e])[1..] == events[1..] + [e];
      PushesAppend(events[1..], e);
    }
  }

  /** Pushing one more recognised event extends the run by its hook call. */
  lemma PushesExtend<P>(obs: Observable<P>, events: seq<RawEvent<P>>, i: nat, p: Push<P>)
    requires i < |events|
    requires forall j :: 0 <= j < i ==> Recognized(events[j])
    requires Dispatch(events[i]) == Some(p)
    ensures Deliver(obs, Pushes(events[..i + 1])) == Emit(Deliver(obs, Pushes(events[..i])), p)
  {
    assert events[..i + 1] == events[..i] + [events[i]];
    PushesAppend(events[..i], events[i]);
  }

  /** `send(obs, events)`. It returns the same observable once every event
      has been pushed; on the first unrecognised tag it throws a `TypeError`,
      after exactly the events before it have been pushed. */
  method Send<P>(obs: Observable<P>, events: seq<RawEvent<P>>) returns (r: SendResult<P>)
    ensures r.Returned? <==> FirstUnrecognized(events) == |events|
    ensures r.obs == Deliver(obs, Pushes(events[..FirstUnrecognized(events)]))
    ensures r.TypeError? ==> r.message == SEND_TYPE_ERROR
  {
    var cur := obs;
    var i := 0;
    while i < |events|
      invariant 0 <= i <= |events|
      invariant forall j :: 0 <= j < i ==> Recognized(events[j])
      invariant cur == Deliver(obs, Pushes(events[..i]))
    {
      var d := Dispatch(events[i]);
      if d.None? {
        StopsAt(events, i);
        return TypeError(SEND_TYPE_ERROR, cur);
      }
      var p := d.value;
      PushesExtend(obs, events, i, p);
      cur := Emit(cur, p);
      i := i + 1;
    }
    assert events[..i] == events;
    return Returned(cur);
  }

  /** Events built by the helpers never make `send` throw, and they push
      exactly their own kinds and payloads. */
  lemma {:induction false} SendBuiltEvents<P>(es: seq<Event<P>>, undefined: P)
    ensures var raws := seq(|es|, i requires 0 <= i < |es| => ToRaw(es[i], undefined));
      FirstUnrecognized(raws) == |raws| &&
      forall i :: 0 <= i < |es| ==> Capture(Pushes(raws)[i], es[i].current) == es[i]
  {
    var raws := seq(|es|, i requires 0 <= i < |es| => ToRaw(es[i], undefined));
    assert forall i :: 0 <= i < |raws| ==> Recognized(raws[i]);
    PushesDispatch(raws);
  }

  /** What a subscribed watcher sees of a `send` that returns: one entry per
      event, in order, each `logItem(event, false)`. With the constructors'
      default flag that is the sent events themselves. */
  lemma SendReachesWatchers<P>(obs: Observable<P>, events: seq<RawEvent<P>>, i: nat)
    requires forall j :: 0 <= j < |events| ==> Recognized(events[j])
    requires i < |obs.watchers| && obs.watchers[i].active
    ensures var w := obs.watchers[i];
      var after := Deliver(obs, Pushes(events)).watchers[i];
      after.active && |after.log| == |w.log| + |events| && after.log[..|w.log|] == w.log &&
      forall j :: 0 <= j < |events| ==>
        after.log[|w.log| + j] == MakeEntry(w.mode, LogItem(events[j], false).value, obs.now)
  {
    var ps := Pushes(events);
    DeliverNotifies(obs, ps);
    PushesDispatch(events);
    forall j | 0 <= j < |events|
      ensures Capture(ps[j], false) == LogItem(events[j], false).value
    {
      DispatchIsLogItem(events[j], false);
    }
  }
}

=== FILE: observables.dfy ===
/** An abstract observable as the test helpers see it: a clock reading, the
    trace of everything pushed through its internal hooks, and the watchers
    subscribed to it with `onAny`. Each watcher owns its log; a push appends
    one entry to the log of every watcher still subscribed. */
module Observables {
  import opened Events

  /** A plain watcher (`watch`) or a timed one (`watchWithTime`) that
      measures elapsed time from the clock reading at which it started. */
  datatype Mode = Untimed | Timed(startTime: int)

  /** A log entry: a bare event for `watch`, an `[elapsed, event]` pair for
      `watchWithTime`. */
  datatype Entry<P> = Logged(event: Event<P>) | Stamped(elapsed: int, event: Event<P>)

  /** One subscriber: its kind, whether it is still subscribed, and its log. */
  datatype Watcher<P> = Watcher(mode: Mode, active: bool, log: seq<Entry<P>>)

  /** The observable together with its watchers; a watcher's handle is its
      index. `now` is the reading of whatever clock is installed. */
  datatype Observable<P> = Observable(now: int, trace: seq<Push<P>>, watchers: seq<Watcher<P>>)

  /** The entry a watcher of the given kind makes of an event at time `now`. */
  function MakeEntry<P>(mode: Mode, e: Event<P>, now: int): (r: Entry<P>)
    ensures r.event == e
    ensures mode.Untimed? <==> r.Logged?
    ensures mode.Timed? ==> r.elapsed == now - mode.startTime
  {
    match mode
    case Untimed => Logged(e)
    case Timed(start) => Stamped(now - start, e)
  }

  /** The entries a watcher makes of a run of pushes at one instant. */
  function Entries<P>(mode: Mode, ps: seq<Push<P>>, current: bool, now: int): (r: seq<Entry<P>>)
    ensures |r| == |ps|
    ensures forall i :: 0 <= i < |ps| ==> r[i] == MakeEntry(mode, Capture(ps[i], current), now)
  {
    if ps == [] then [] else [MakeEntry(mode, Capture(ps[0], current), now)] + Entries(mode, ps[1..], current, now)
  }

  /** The callback a watcher subscribed: it logs the push, not current. */
  function Notify<P>(w: Watcher<P>, p: Push<P>, now: int): (r: Watcher<P>)
    ensures r.mode == w.mode && r.active == w.active
    ensures !w.active ==> r == w
    ensures w.active ==> |r.log| == |w.log| + 1 && r.log[..|w.log|] == w.log
    ensures w.active ==> r.log[|w.log|].event == Capture(p, false) && !r.log[|w.log|].event.current
  {
    if w.active then w.(log := w.log + [MakeEntry(w.mode, Capture(p, false), now)]) else w
  }

  /** A push through the observable's hooks (`_emitValue`, `_emitError`,
      `_emitEnd`): recorded in the trace and handed to every subscriber. */
  function Emit<P>(obs: Observable<P>, p: Push<P>): (r: Observable<P>)
    ensures r.now == obs.now && r.trace == obs.trace + [p]
    ensures |r.watchers| == |obs.watchers|
    ensures forall i :: 0 <= i < |obs.watchers| ==> r.watchers[i] == Notify(obs.watchers[i], p, obs.now)
  {
    obs.(trace := obs.trace + [p],
         watchers := seq(|obs.watchers|, i requires 0 <= i < |obs.watchers| => Notify(obs.watchers[i], p, obs.now)))
  }

  /** A run of pushes, in order. */
  function Deliver<P>(obs: Observable<P>, ps: seq<Push<P>>): (r: Observable<P>)
    ensures r.now == obs.now
    ensures r.trace == obs.trace + ps
    ensures |r.watchers| == |obs.watchers|
  {
    if ps == [] then obs else Emit(Deliver(obs, ps[..|ps| - 1]), ps[|ps| - 1])
  }

  /** Every subscribed watcher logs exactly the pushes, in order, none of
      them current and all stamped at the same instant; an unsubscribed
      watcher logs nothing; only the trace grows and the clock stands still. */
  lemma {:induction false} DeliverNotifies<P>(obs: Observable<P>, ps: seq<Push<P>>)
    ensures forall i :: 0 <= i < |obs.watchers| ==>
      var w := obs.watchers[i];
      Deliver(obs, ps).watchers[i] ==
        if w.active then w.(log := w.log + Entries(w.mode, ps, false, obs.now)) else w
    decreases |ps|
  {
    if ps != [] {
      var front := ps[..|ps| - 1];
      var last := ps[|ps| - 1];
      DeliverNotifies(obs, front);
      assert front + [last] == ps;
      forall i | 0 <= i < |obs.watchers|
        ensures var w := obs.watchers[i];
          Deliver(obs, ps).watchers[i] ==
            if w.active then w.(log := w.log + Entries(w.mode, ps, false, obs.now)) else w
      {
        var w := obs.watchers[i];
        if w.active {
          var es := Entries(w.mode, front, false, obs.now);
          assert Entries(w.mode, ps, false, obs.now) == es + [MakeEntry(w.mode, Capture(last, false), obs.now)];
        }
      }
    }
  }
}

=== FILE: recorder.dfy ===
/** The recorder: `watch(obs)` and `watchWithTime(obs)` subscribe a fresh
    watcher with its own log. What the observable delivers while the
    subscription is being made is logged as current; everything pushed later
    is logged as not current; `unwatch` detaches a plain watcher for good.
    A run of steps (pushes, clock advances, subscriptions, unsubscriptions)
    lets the lemmas speak about everything that can happen after a call. */
module Recorder {
  import opened Events
  import opened Observables

  /** Adds a subscribed watcher whose log holds what the observable replays
      synchronously during `onAny` (its current state), flagged current. */
  function Subscribe<P>(obs: Observable<P>, mode: Mode, replay: seq<Push<P>>): Observable<P>
  {
    obs.(watchers := obs.watchers + [Watcher(mode, true, Entries(mode, replay, true, obs.now))])
  }

  /** `watch(obs)`: the new observable state and the handle of the fresh
      watcher, whose log holds just the replay, each entry current. No other
      watcher, the trace and the clock are touched. */
  function Watch<P>(obs: Observable<P>, replay: seq<Push<P>>): (r: (Observable<P>, nat))
    ensures r.1 == |obs.watchers| && |r.0.watchers| == r.1 + 1
    ensures r.0.now == obs.now && r.0.trace == obs.trace
    ensures r.0.watchers[..r.1] == obs.watchers
    ensures var w := r.0.watchers[r.1];
      w.mode == Untimed && w.active && |w.log| == |replay| &&
      forall i :: 0 <= i < |replay| ==> w.log[i] == Logged(Capture(replay[i], true)) && w.log[i].event.current
  {
    (Subscribe(obs, Untimed, replay), |obs.watchers|)
  }

  /** `watchWithTime(obs)`: like `watch`, but the watcher stamps each entry
      with the time elapsed since now; the replay is therefore stamped 0. */
  function WatchWithTime<P>(obs: Observable<P>, replay: seq<Push<P>>): (r: (Observable<P>, nat))
    ensures r.1 == |obs.watchers| && |r.0.watchers| == r.1 + 1
    ensures r.0.now == obs.now && r.0.trace == obs.trace
    ensures r.0.watchers[..r.1] == obs.watchers
    ensures var w := r.0.watchers[r.1];
      w.mode == Timed(obs.now) && w.active && |w.log| == |replay| &&
      forall i :: 0 <= i < |replay| ==> w.log[i] == Stamped(0, Capture(replay[i], true)) && w.log[i].event.current
  {
    (Subscribe(obs, Timed(obs.now), replay), |obs.watchers|)
  }

  /** The `unwatch` handle of a plain watcher: `offAny` of its callback. Only
      `watch` hands out such a handle, and `offAny` of a callback that is not
      subscribed does nothing, so any other id leaves everything as it was. */
  function Unwatch<P>(obs: Observable<P>, id: nat): (r: Observable<P>)
    ensures r.now == obs.now && r.trace == obs.trace && |r.watchers| == |obs.watchers|
    ensures forall j :: 0 <= j < |obs.watchers| && j != id ==> r.watchers[j] == obs.watchers[j]
    ensures id < |obs.watchers| && obs.watchers[id].mode.Untimed? ==>
      !r.watchers[id].active && r.watchers[id].log == obs.watchers[id].log
    ensures !(id < |obs.watchers| && obs.watchers[id].mode.Untimed?) ==> r == obs
  {
    if id < |obs.watchers| && obs.watchers[id].mode.Untimed? then
      obs.(watchers := obs.watchers[id := obs.watchers[id].(active := false)])
    else obs
  }

  /** Advances the installed clock; it never goes backwards. */
  function Tick<P>(obs: Observable<P>, dt: nat): Observable<P>
  {
    obs.(now := obs.now + dt)
  }

  /** Anything that can happen to an observable and its watchers. */
  datatype Step<P> =
    | Pushed(push: Push<P>)
    | Ticked(dt: nat)
    | Watched(replay: seq<Push<P>>)
    | WatchedWithTime(replay: seq<Push<P>>)
    | Unwatched(id: nat)

  function Apply<P>(obs: Observable<P>, s: Step<P>): Observable<P>
  {
    match s
    case Pushed(p) => Emit(obs, p)
    case Ticked(dt) => Tick(obs, dt)
    case Watched(replay) => Watch(obs, replay).0
    case WatchedWithTime(replay) => WatchWithTime(obs, replay).0
    case Unwatched(id) => Unwatch(obs, id)
  }

  /** A run of steps. Watchers are never removed, the trace only grows, and
      the clock only moves forward. */
  function Run<P>(obs: Observable<P>, steps: seq<Step<P>>): (r: Observable<P>)
    ensures |r.watchers| >= |obs.watchers|
    ensures |r.trace| >= |obs.trace| && r.trace[..|obs.trace|] == obs.trace
    ensures r.now >= obs.now
    decreases |steps|
  {
    if steps == [] then obs else Run(Apply(obs, steps[0]), steps[1..])
  }

  /** The events of a log, without their stamps. */
  function EventsOf<P>(log: seq<Entry<P>>): (es: seq<Event<P>>)
    ensures |es| == |log| && forall i :: 0 <= i < |log| ==> es[i] == log[i].event
  {
    if log == [] then [] else [log[0].event] + EventsOf(log[1..])
  }

  /** What a watcher logs of a run of pushes, flagged `current`. */
  function Captures<P>(ps: seq<Push<P>>, current: bool): (es: seq<Event<P>>)
    ensures |es| == |ps| && forall i :: 0 <= i < |ps| ==> es[i] == Capture(ps[i], current)
  {
    if ps == [] then [] else [Capture(ps[0], current)] + Captures(ps[1..], current)
  }

  /** One step never re-subscribes a detached watcher nor touches its log. */
  lemma ApplyKeepsDetached<P>(obs: Observable<P>, s: Step<P>, i: nat)
    requires i < |obs.watchers| && !obs.watchers[i].active
    ensures i < |Apply(obs, s).watchers| && Apply(obs, s).watchers[i] == obs.watchers[i]
  {
    match s
    case Watched(replay) =>
      assert Apply(obs, s).watchers[..|obs.watchers|] == obs.watchers;
    case WatchedWithTime(replay) =>
      assert Apply(obs, s).watchers[..|obs.watchers|] == obs.watchers;
    case _ =>
  }

  /** After `unwatch` the log never grows: whatever happens next, the
      detached watcher stays as it is. */
  lemma {:induction false} UnwatchFreezesLog<P>(obs: Observable<P>, steps: seq<Step<P>>, i: nat)
    requires i < |obs.watchers| && !obs.watchers[i].active
    ensures Run(obs, steps).watchers[i] == obs.watchers[i]
    decreases |steps|
  {
    if steps != [] {
      ApplyKeepsDetached(obs, steps[0], i);
      UnwatchFreezesLog(Apply(obs, steps[0]), steps[1..], i);
    }
  }

  /** `unwatch()` followed by anything: the log stays at its length and
      contents at the moment of the call. */
  lemma UnwatchThenRun<P>(obs: Observable<P>, id: nat, steps: seq<Step<P>>)
    requires id < |obs.watchers| && obs.watchers[id].mode.Untimed?
    ensures Run(Unwatch(obs, id), steps).watchers[id].log == obs.watchers[id].log
    ensures !Run(Unwatch(obs, id), steps).watchers[id].active
  {
    UnwatchFreezesLog(Unwatch(obs, id), steps, id);
  }

  /** One step, seen from a watcher that is subscribed after it: the watcher
      was subscribed before, and its events grew by the capture of what the
      step pushed, not current. */
  lemma ApplyLogsPushes<P>(obs: Observable<P>, s: Step<P>, i: nat)
    requires i < |obs.watchers|
    requires Apply(obs, s).watchers[i].active
    ensures obs.watchers[i].active
    ensures var after := Apply(obs, s);
      |after.trace| >= |obs.trace| && after.trace[..|obs.trace|] == obs.trace &&
      EventsOf(after.watchers[i].log) == EventsOf(obs.watchers[i].log) + Captures(after.trace[|obs.trace|..], false)
  {
    var after := Apply(obs, s);
    if !obs.watchers[i].active {
      ApplyKeepsDetached(obs, s, i);
    }
    var w := obs.watchers[i];
    match s
    case Pushed(p) =>
      assert after.trace[|obs.trace|..] == [p];
      assert after.watchers[i].log == w.log + [MakeEntry(w.mode, Capture(p, false), obs.now)];
      assert EventsOf(after.watchers[i].log) == EventsOf(w.log) + [Capture(p, false)];
    case Watched(replay) =>
      assert after.watchers[..|obs.watchers|] == obs.watchers;
      assert after.trace[|obs.trace|..] == [];
    case WatchedWithTime(replay) =>
      assert after.watchers[..|obs.watchers|] == obs.watchers;
      assert after.trace[|obs.trace|..] == [];
    case Ticked(_) =>
      assert after.trace[|obs.trace|..] == [];
    case Unwatched(_) =>
      assert after.trace[|obs.trace|..] == [];
  }

  /** The log is `logItem` of each emission, in emission order: a watcher
      still subscribed at the end of a run has logged every push of the run,
      in order, none of them current. */
  lemma {:induction false} LogFollowsTrace<P>(obs: Observable<P>, steps: seq<Step<P>>, i: nat)
    requires i < |obs.watchers|
    requires Run(obs, steps).watchers[i].active
    ensures var r := Run(obs, steps);
      EventsOf(r.watchers[i].log) == EventsOf(obs.watchers[i].log) + Captures(r.trace[|obs.trace|..], false)
    decreases |steps|
  {
    var r := Run(obs, steps);
    if steps == [] {
      assert r.trace[|obs.trace|..] == [];
    } else {
      var mid := Apply(obs, steps[0]);
      assert r == Run(mid, steps[1..]);
      assert mid.watchers[i].active by {
        if !mid.watchers[i].active {
          UnwatchFreezesLog(mid, steps[1..], i);
        }
      }
      LogFollowsTrace(mid, steps[1..], i);
      ApplyLogsPushes(obs, steps[0], i);
      CapturesSplit(obs.trace, mid.trace, r.trace);
      ComposeGrowth(EventsOf(obs.watchers[i].log), EventsOf(mid.watchers[i].log), EventsOf(r.watchers[i].log),
                    Captures(mid.trace[|obs.trace|..], false), Captures(r.trace[|mid.trace|..], false));
    }
  }

  /** The entries a watcher makes of a run of pushes hold exactly the
      captures of those pushes, whatever the watcher's kind. */
  lemma EventsOfEntries<P>(mode: Mode, ps: seq<Push<P>>, current: bool, now: int)
    ensures EventsOf(Entries(mode, ps, current, now)) == Captures(ps, current)
  {
  }

  /** The whole `watch` promise: a watcher still subscribed after any run
      has logged the replay made during `onAny`, each entry current, then
      every push of the run in push order, none current. */
  lemma WatchThenRun<P>(obs: Observable<P>, replay: seq<Push<P>>, steps: seq<Step<P>>)
    requires Run(Watch(obs, replay).0, steps).watchers[|obs.watchers|].active
    ensures var r := Run(Watch(obs, replay).0, steps);
      EventsOf(r.watchers[|obs.watchers|].log) == Captures(replay, true) + Captures(r.trace[|obs.trace|..], false)
  {
    var o := Watch(obs, replay).0;
    LogFollowsTrace(o, steps, |obs.watchers|);
    EventsOfEntries(Untimed, replay, true, obs.now);
  }

  /** What is logged over two stretches of a run is what is logged over the
      first, then over the second. */
  lemma CapturesSplit<P>(t0: seq<Push<P>>, t1: seq<Push<P>>, t2: seq<Push<P>>)
    requires |t0| <= |t1| && t1[..|t0|] == t0
    requires |t1| <= |t2| && t2[..|t1|] == t1
    ensures Captures(t2[|t0|..], false) == Captures(t1[|t0|..], false) + Captures(t2[|t1|..], false)
  {
    GrowthSplits(t0, t1, t2);
    CapturesAppend(t1[|t0|..], t2[|t1|..], false);
  }

  /** Appending two growths one after the other. */
  lemma ComposeGrowth<T>(l0: seq<T>, l1: seq<T>, l2: seq<T>, a: seq<T>, b: seq<T>)
    requires l1 == l0 + a && l2 == l1 + b
    ensures l2 == l0 + (a + b)
  {
  }

  /** Growth over two stretches is the growth of the first then the second. */
  lemma GrowthSplits<T>(a: seq<T>, b: seq<T>, c: seq<T>)
    requires |a| <= |b| && b[..|a|] == a
    requires |b| <= |c| && c[..|b|] == b
    ensures c[|a|..] == b[|a|..] + c[|b|..]
  {
  }

  lemma CapturesAppend<P>(a: seq<Push<P>>, b: seq<Push<P>>, current: bool)
    ensures Captures(a + b, current) == Captures(a, current) + Captures(b, current)
  {
  }

  /** A timed watcher's stamps are its elapsed times: never negative, never
      decreasing along the log, and never ahead of the clock. A plain
      watcher's entries carry no stamp. */
  predicate WellStamped<P>(w: Watcher<P>, now: int)
  {
    match w.mode
    case Untimed => forall j :: 0 <= j < |w.log| ==> w.log[j].Logged?
    case Timed(start) =>
      && start <= now
      && (forall j :: 0 <= j < |w.log| ==> w.log[j].Stamped? && 0 <= w.log[j].elapsed <= now - start)
      && (forall j, k :: 0 <= j < k < |w.log| ==> w.log[j].elapsed <= w.log[k].elapsed)
  }

  predicate Valid<P>(obs: Observable<P>)
  {
    forall i :: 0 <= i < |obs.watchers| ==> WellStamped(obs.watchers[i], obs.now)
  }

  /** Every step keeps the stamps well formed. */
  lemma ApplyKeepsStamps<P>(obs: Observable<P>, s: Step<P>)
    requires Valid(obs)
    ensures Valid(Apply(obs, s))
  {
    var after := Apply(obs, s);
    forall i | 0 <= i < |after.watchers| ensures WellStamped(after.watchers[i], after.now) {
      if i < |obs.watchers| {
        var w := obs.watchers[i];
        assert WellStamped(w, obs.now);
        match s
        case Pushed(p) =>
          if w.active {
            assert after.watchers[i].log == w.log + [MakeEntry(w.mode, Capture(p, false), obs.now)];
          }
        case Watched(_) =>
          assert after.watchers[..|obs.watchers|] == obs.watchers;
          assert after.watchers[i] == w;
        case WatchedWithTime(_) =>
          assert after.watchers[..|obs.watchers|] == obs.watchers;
          assert after.watchers[i] == w;
        case Ticked(_) =>
        case Unwatched(id) =>
      }
    }
  }

  /** Under a clock that never goes backwards, every timed log stays
      non-negative and non-decreasing in log order, whatever happens. */
  lemma {:induction false} RunKeepsStamps<P>(obs: Observable<P>, steps: seq<Step<P>>)
    requires Valid(obs)
    ensures Valid(Run(obs, steps))
    decreases |steps|
  {
    if steps != [] {
      ApplyKeepsStamps(obs, steps[0]);
      RunKeepsStamps(Apply(obs, steps[0]), steps[1..]);
    }
  }

  /** Without clock advances the clock reads the same after a run. */
  lemma {:induction false} RunWithoutTicks<P>(obs: Observable<P>, steps: seq<Step<P>>)
    requires forall j :: 0 <= j < |steps| ==> !steps[j].Ticked?
    ensures Run(obs, steps).now == obs.now
    decreases |steps|
  {
    if steps != [] {
      RunWithoutTicks(Apply(obs, steps[0]), steps[1..]);
    }
  }

  /** When no time passes, every entry of a timed watcher started at the
      current reading is stamped 0. */
  lemma NoTimeNoStamps<P>(obs: Observable<P>, steps: seq<Step<P>>, i: nat)
    requires Valid(obs)
    requires forall j :: 0 <= j < |steps| ==> !steps[j].Ticked?
    requires i < |Run(obs, steps).watchers| && Run(obs, steps).watchers[i].mode == Timed(obs.now)
    ensures forall j :: 0 <= j < |Run(obs, steps).watchers[i].log| ==>
      Run(obs, steps).watchers[i].log[j] == Stamped(0, Run(obs, steps).watchers[i].log[j].event)
  {
    RunKeepsStamps(obs, steps);
    RunWithoutTicks(obs, steps);
    assert WellStamped(Run(obs, steps).watchers[i], obs.now);
  }
}

=== FILE: scenarios.dfy ===
/** The behaviours the repository's own tests exercise, stated over the
    model with concrete JavaScript values. */
module Scenarios {
  import opened Events
  import opened Observables
  import opened Injector
  import opened Recorder
  import opened Timers

  /** The JavaScript values the tests use: numbers, and the `undefined` read
      from an absent `value` field. */
  datatype JsValue = Undefined | Num(n: int)

  /** `[value(1), error(2), end()]` as the objects `send` receives. */
  function SampleEvents(): seq<RawEvent<JsValue>>
  {
    [ToRaw(Value(Num(1)), Undefined), ToRaw(Error(Num(2)), Undefined), ToRaw(Event<JsValue>.End(), Undefined)]
  }

  /** A fresh stream with nobody subscribed, at some clock reading. */
  function FreshStream(now: int): Observable<JsValue>
  {
    Observable(now, [], [])
  }

  /** Watching a stream and sending `[value(1), error(2), end()]` logs
      exactly those three events, none current; `send` does not throw. */
  lemma WatchLogsSentEvents(now: int)
    ensures FirstUnrecognized(SampleEvents()) == 3
    ensures var (obs, id) := Watch(FreshStream(now), []);
      id < |obs.watchers| &&
      Deliver(obs, Pushes(SampleEvents())).watchers[id].log ==
        [Logged(Value(Num(1))), Logged(Error(Num(2))), Logged(End())]
  {
    var (obs, id) := Watch(FreshStream(now), []);
    SendReachesWatchers(obs, SampleEvents(), id);
  }

  /** After `unwatch()`, sending the same events leaves the log empty. */
  lemma UnwatchedLogStaysEmpty(now: int)
    ensures var (obs, id) := Watch(FreshStream(now), []);
      id < |obs.watchers| &&
      Deliver(Unwatch(obs, id), Pushes(SampleEvents())).watchers[id].log == []
  {
    var (obs, id) := Watch(FreshStream(now), []);
    DeliverNotifies(Unwatch(obs, id), Pushes(SampleEvents()));
  }

  /** `watchWithTime` with no time passing stamps every entry 0. */
  lemma TimedLogWithoutTime(now: int)
    ensures var (obs, id) := WatchWithTime(FreshStream(now), []);
      id < |obs.watchers| &&
      Deliver(obs, Pushes(SampleEvents())).watchers[id].log ==
        [Stamped(0, Value(Num(1))), Stamped(0, Error(Num(2))), Stamped(0, End())]
  {
    var (obs, id) := WatchWithTime(FreshStream(now), []);
    SendReachesWatchers(obs, SampleEvents(), id);
  }

  /** `send(obs, [{type: 'WRONG'}])` throws before anything is pushed, so no
      subscriber sees anything. */
  lemma SendRejectsUnknownTag(obs: Observable<JsValue>)
    ensures var events := [RawEvent("WRONG", Undefined)];
      FirstUnrecognized(events) == 0 && Deliver(obs, Pushes(events[..0])) == obs
  {
  }

  /** Two `setTimeout` calls made at the same instant with the same delay,
      the first given id 1 and the second id 2: after the shake the second
      one holds id 1 and fires first. */
  lemma SimultaneousTimeoutsReversed(reg: Registry, due: int, at: int, first: nat, second: nat)
    requires reg == map[1 := Timer(1, due, false, at, first), 2 := Timer(2, due, false, at, second)]
    ensures WellKeyed(reg) && NewKey(reg, 2) == 1 && NewKey(reg, 1) == 2
    ensures ShakeTimers(reg)[1] == Timer(1, due, false, 0, second)
    ensures ShakeTimers(reg)[2] == Timer(2, due, false, 0, first)
    ensures FiresBefore(ShakeTimers(reg)[1], ShakeTimers(reg)[2])
  {
    assert WellKeyed(reg) by {
      forall k | k in reg ensures reg[k].id == k {
        assert k == 1 || k == 2;
      }
    }
    SwappedIds(reg, 1, 2);
    ShakeMovesRecord(reg, 1);
    ShakeMovesRecord(reg, 2);
  }

  /** In a registry of two keys, a tie on due time, class and creation stamp
      swaps the two ids. */
  lemma SwappedIds(reg: Registry, a: nat, b: nat)
    requires WellKeyed(reg) && reg.Keys == {a, b} && a < b
    requires reg[a].callAt == reg[b].callAt && reg[a].immediate == reg[b].immediate
    requires reg[a].createdAt == reg[b].createdAt
    ensures NewKey(reg, a) == b && NewKey(reg, b) == a
  {
    TwoTimerShake(reg, a, b);
  }

  /** The shake writes the key strings of `Object.keys` back as ids. Two
      timeouts due together under keys 9 and 10, the one under 10 created
      later: the shake moves the later one to key 9 and the earlier one to
      key 10. Compared as numbers, the later one fires first, as intended;
      compared as the strings "9" and "10", the earlier one fires first, so
      the reversal is lost. */
  lemma StringIdsBreakReversal(reg: Registry, due: int, first: nat, second: nat)
    requires reg == map[9 := Timer(9, due, false, 0, first), 10 := Timer(10, due, false, 1, second)]
    ensures WellKeyed(reg)
    ensures ShakeTimers(reg)[9] == Timer(9, due, false, 0, second)
    ensures ShakeTimers(reg)[10] == Timer(10, due, false, 0, first)
    ensures FiresBefore(ShakeTimers(reg)[9], ShakeTimers(reg)[10])
    ensures FiresBeforeAsWritten(ShakeTimers(reg)[10], ShakeTimers(reg)[9])
    ensures !FiresBeforeAsWritten(ShakeTimers(reg)[9], ShakeTimers(reg)[10])
  {
    assert WellKeyed(reg) by {
      forall k | k in reg ensures reg[k].id == k {
        assert k == 9 || k == 10;
      }
    }
    LaterMovesDown(reg);
    TenBeforeNine();
  }

  /** Of two tied timers under keys 9 and 10, the later-created one ends
      under 9 and the other under 10. */
  lemma LaterMovesDown(reg: Registry)
    requires WellKeyed(reg) && reg.Keys == {9, 10}
    requires reg[9].callAt == reg[10].callAt && reg[9].immediate == reg[10].immediate
    requires reg[9].createdAt < reg[10].createdAt
    ensures 9 in ShakeTimers(reg) && ShakeTimers(reg)[9] == Relabel(reg[10], 9)
    ensures 10 in ShakeTimers(reg) && ShakeTimers(reg)[10] == Relabel(reg[9], 10)
  {
    TwoTimerShake(reg, 9, 10);
    ShakeMovesRecord(reg, 9);
    ShakeMovesRecord(reg, 10);
  }

  /** As strings, "10" comes before "9". */
  lemma TenBeforeNine()
    ensures DecimalString(10) == "10" && DecimalString(9) == "9"
    ensures StringLess(DecimalString(10), DecimalString(9))
    ensures !StringLess(DecimalString(9), DecimalString(10))
  {
    assert DecimalString(1) == "1";
    assert DecimalString(10) == DecimalString(1) + ['0'];
  }
}

=== FILE: timers.dfy ===
/** The timer tie-breaker `shakeTimers`: it reorders the pending timers of the
    fake clock so that, of timers due at the same instant, the one scheduled
    last fires first. It sorts the records with a four-key comparator, hands
    the ascending list of the original ids to the records in sorted order,
    zeroes every creation stamp, and writes the records back keyed by their
    new ids. */
module Timers {

  /** A pending timer record of the fake clock. `callback` stands for every
      field the tie-breaker never touches (function, arguments, interval). */
  datatype Timer = Timer(id: nat, callAt: int, immediate: bool, createdAt: int, callback: nat)

  /** The clock's registry of pending timers, keyed by id. */
  type Registry = map<nat, Timer>

  /** The clock stores every timer under its own id. */
  predicate WellKeyed(reg: Registry)
  {
    forall k :: k in reg ==> reg[k].id == k
  }

  /** The sort comparator of `shakeTimers`, returning -1, 1, or `undefined`
      (read by the sort as 0) when all four keys tie. */
  function Compare(a: Timer, b: Timer): (c: int)
    ensures c == -1 || c == 0 || c == 1
    ensures c == 0 <==> a.callAt == b.callAt && a.immediate == b.immediate && a.createdAt == b.createdAt && a.id == b.id
  {
    if a.callAt < b.callAt then -1
    else if a.callAt > b.callAt then 1
    else if a.immediate && !b.immediate then -1
    else if !a.immediate && b.immediate then 1
    else if a.createdAt < b.createdAt then 1
    else if a.createdAt > b.createdAt then -1
    else if a.id < b.id then 1
    else if a.id > b.id then -1
    else 0
  }

  /** `a` goes before `b` in the tie-breaker's sort: due time ascending,
      immediate timers first, then creation stamp DESCENDING and id
      DESCENDING. */
  predicate ShakesBefore(a: Timer, b: Timer)
  {
    || a.callAt < b.callAt
    || (a.callAt == b.callAt && a.immediate && !b.immediate)
    || (a.callAt == b.callAt && a.immediate == b.immediate && a.createdAt > b.createdAt)
    || (a.callAt == b.callAt && a.immediate == b.immediate && a.createdAt == b.createdAt && a.id > b.id)
  }

  /** The comparator puts `a` first exactly when `ShakesBefore(a, b)`, and it
      is antisymmetric. */
  lemma CompareMeansShakesBefore(a: Timer, b: Timer)
    ensures Compare(a, b) < 0 <==> ShakesBefore(a, b)
    ensures Compare(a, b) > 0 <==> ShakesBefore(b, a)
    ensures Compare(b, a) == -Compare(a, b)
  {
  }

  /** On timers with distinct ids the order is strict and total, so every
      correct sort of such timers yields the same sequence. */
  lemma ShakesBeforeIsStrictOrder(a: Timer, b: Timer, c: Timer)
    ensures !ShakesBefore(a, a)
    ensures ShakesBefore(a, b) ==> !ShakesBefore(b, a)
    ensures a.id != b.id ==> ShakesBefore(a, b) || ShakesBefore(b, a)
    ensures ShakesBefore(a, b) && ShakesBefore(b, c) ==> ShakesBefore(a, c)
  {
  }

  /** Every earlier element goes before every later one. */
  predicate SortedByShake(s: seq<Timer>)
  {
    forall i, j :: 0 <= i < j < |s| ==> ShakesBefore(s[i], s[j])
  }

  predicate DistinctIds(s: seq<Timer>)
  {
    forall i, j :: 0 <= i < j < |s| ==> s[i].id != s[j].id
  }

  /** Inserts a timer at its place in a sorted sequence. */
  function Insert(t: Timer, s: seq<Timer>): (r: seq<Timer>)
    requires SortedByShake(s)
    requires forall u :: u in s ==> u.id != t.id
    ensures multiset(r) == multiset(s) + multiset{t}
    ensures SortedByShake(r)
  {
    if s == [] then [t]
    else if ShakesBefore(t, s[0]) then
      InsertFront(t, s);
      [t] + s
    else
      assert s[0] in s;
      var rest := Insert(t, s[1..]);
      InsertBehind(t, s, rest);
      [s[0]] + rest
  }

  /** A timer going before the head of a sorted sequence goes before all of it. */
  lemma InsertFront(t: Timer, s: seq<Timer>)
    requires SortedByShake(s) && s != [] && ShakesBefore(t, s[0])
    ensures SortedByShake([t] + s)
  {
    forall j | 0 <= j < |s| ensures ShakesBefore(t, s[j]) {
      ShakesBeforeIsStrictOrder(t, s[0], s[j]);
    }
    forall i, j | 0 <= i < j < |[t] + s| ensures ShakesBefore(([t] + s)[i], ([t] + s)[j]) {
      assert ([t] + s)[j] == s[j - 1];
      if i > 0 {
        assert ([t] + s)[i] == s[i - 1];
      }
    }
  }

  /** A timer going after the head of a sorted sequence, inserted into its
      tail, leaves the head in front. */
  lemma InsertBehind(t: Timer, s: seq<Timer>, rest: seq<Timer>)
    requires SortedByShake(s) && s != [] && !ShakesBefore(t, s[0]) && t.id != s[0].id
    requires multiset(rest) == multiset(s[1..]) + multiset{t}
    requires SortedByShake(rest)
    ensures multiset([s[0]] + rest) == multiset(s) + multiset{t}
    ensures SortedByShake([s[0]] + rest)
  {
    ShakesBeforeIsStrictOrder(t, s[0], t);
    assert s == [s[0]] + s[1..];
    forall j | 0 <= j < |rest| ensures ShakesBefore(s[0], rest[j]) {
      assert rest[j] in multiset(rest);
      if rest[j] != t {
        assert rest[j] in multiset(s[1..]);
        var m :| 0 <= m < |s[1..]| && s[1..][m] == rest[j];
        assert s[m + 1] == rest[j];
      }
    }
    var r := [s[0]] + rest;
    forall i, j | 0 <= i < j < |r| ensures ShakesBefore(r[i], r[j]) {
      assert r[j] == rest[j - 1];
      if i > 0 {
        assert r[i] == rest[i - 1];
      }
    }
  }

  /** Sorts timers with the tie-breaker's comparator (an insertion sort;
      `SortUnique` shows any other correct sort gives the same result). */
  function Sort(s: seq<Timer>): (r: seq<Timer>)
    requires DistinctIds(s)
    ensures multiset(r) == multiset(s)
    ensures SortedByShake(r)
  {
    if s == [] then []
    else
      var rest := Sort(s[1..]);
      assert forall u :: u in rest ==> u.id != s[0].id by {
        forall u | u in rest ensures u.id != s[0].id {
          assert u in multiset(s[1..]);
          var m :| 0 <= m < |s[1..]| && s[1..][m] == u;
          assert s[m + 1] == u;
        }
      }
      assert s == [s[0]] + s[1..];
      Insert(s[0], rest)
  }

  /** Two sorted arrangements of the same timers are equal: the comparator
      leaves no freedom, so the JavaScript engine's sort and `Sort` agree. */
  lemma {:induction false} SortUnique(a: seq<Timer>, b: seq<Timer>)
    requires multiset(a) == multiset(b)
    requires SortedByShake(a) && SortedByShake(b)
    ensures a == b
    decreases |a|
  {
    assert |a| == |multiset(a)| == |multiset(b)| == |b|;
    if a != [] {
      assert a[0] in multiset(b);
      assert b[0] in multiset(a);
      if a[0] != b[0] {
        assert false;
      }
      assert a == [a[0]] + a[1..];
      assert b == [b[0]] + b[1..];
      assert multiset(a[1..]) == multiset(a) - multiset{a[0]};
      assert multiset(b[1..]) == multiset(b) - multiset{b[0]};
      SortUnique(a[1..], b[1..]);
    }
  }

  /** `m` is the smallest of the keys. */
  predicate IsLeast(m: nat, keys: set<nat>)
  {
    m in keys && forall k :: k in keys ==> m <= k
  }

  /** Some key is smallest in a non-empty key set. */
  lemma {:induction false} HasLeast(keys: set<nat>)
    requires keys != {}
    ensures exists m :: IsLeast(m, keys)
    decreases keys
  {
    var x :| x in keys;
    if keys == {x} {
      assert IsLeast(x, keys);
    } else {
      HasLeast(keys - {x});
      var m :| IsLeast(m, keys - {x});
      var least := if x < m then x else m;
      forall k | k in keys ensures least <= k {
        if k != x {
          assert k in keys - {x};
        }
      }
      assert IsLeast(least, keys);
    }
  }

  /** The registry's keys in the order `ids.sort((a, b) => a - b)` leaves
      them: ascending. */
  function SortedKeys(keys: set<nat>): (r: seq<nat>)
    ensures |r| == |keys|
    ensures forall k :: k in keys <==> k in r
    ensures forall i, j :: 0 <= i < j < |r| ==> r[i] < r[j]
    decreases keys
  {
    if keys == {} then []
    else
      var m := Least(keys);
      var rest := SortedKeys(keys - {m});
      PrependLeast(keys, m, rest);
      [m] + rest
  }

  /** The smallest key followed by the others in order lists them all in
      order. */
  lemma PrependLeast(keys: set<nat>, m: nat, rest: seq<nat>)
    requires IsLeast(m, keys)
    requires |rest| == |keys - {m}|
    requires forall k :: k in keys - {m} <==> k in rest
    requires forall i, j :: 0 <= i < j < |rest| ==> rest[i] < rest[j]
    ensures |[m] + rest| == |keys|
    ensures forall k :: k in keys <==> k in [m] + rest
    ensures forall i, j :: 0 <= i < j < |[m] + rest| ==> ([m] + rest)[i] < ([m] + rest)[j]
  {
    assert |keys - {m}| == |keys| - 1;
    forall k ensures k in keys <==> k in [m] + rest {
      assert k in [m] + rest <==> k == m || k in rest;
    }
    forall i, j | 0 <= i < j < |[m] + rest| ensures ([m] + rest)[i] < ([m] + rest)[j] {
      assert ([m] + rest)[j] == rest[j - 1];
      assert rest[j - 1] in rest;
      if i > 0 {
        assert ([m] + rest)[i] == rest[i - 1];
      }
    }
  }

  /** The smallest key of a non-empty key set. */
  function Least(keys: set<nat>): (m: nat)
    requires keys != {}
    ensures IsLeast(m, keys)
  {
    HasLeast(keys);
    var m :| IsLeast(m, keys);
    m
  }

  /** The registry's records, listed in the order of the given keys. */
  function Lookup(reg: Registry, ks: seq<nat>): (r: seq<Timer>)
    requires forall k :: k in ks ==> k in reg
    ensures |r| == |ks|
    ensures forall i :: 0 <= i < |ks| ==> r[i] == reg[ks[i]]
  {
    if ks == [] then [] else [reg[ks[0]]] + Lookup(reg, ks[1..])
  }

  /** The records of the registry in the order the tie-breaker's sort
      leaves them. */
  function ShakeOrder(reg: Registry): (r: seq<Timer>)
    requires WellKeyed(reg)
    ensures |r| == |reg|
    ensures multiset(r) == multiset(KeyOrder(reg))
    ensures SortedByShake(r)
  {
    var records := KeyOrder(reg);
    var r := Sort(records);
    assert |r| == |multiset(r)| == |records|;
    r
  }

  /** Whatever order `Object.keys` lists the records in, sorting them gives
      the same sequence as sorting them by ascending key. */
  lemma ListingOrderIrrelevant(reg: Registry, s: seq<Timer>)
    requires WellKeyed(reg)
    requires DistinctIds(s) && multiset(s) == multiset(KeyOrder(reg))
    ensures Sort(s) == ShakeOrder(reg)
  {
    SortUnique(Sort(s), ShakeOrder(reg));
  }

  /** The registry's records by ascending key: one per key, ids distinct.
      `Object.keys` lists keys above 2^32 - 2 in creation order, not
      ascending; `ListingOrderIrrelevant` shows the sort does not care. */
  function KeyOrder(reg: Registry): (records: seq<Timer>)
    requires WellKeyed(reg)
    ensures |records| == |reg|
    ensures DistinctIds(records)
    ensures forall i :: 0 <= i < |records| ==> records[i].id in reg && reg[records[i].id] == records[i]
    ensures forall k :: k in reg ==> reg[k] in records
  {
    var ids := SortedKeys(reg.Keys);
    var records := Lookup(reg, ids);
    KeyOrderFacts(reg, ids, records);
    records
  }

  /** Records looked up under ascending keys, one per key, have distinct ids
      and cover the registry. */
  lemma KeyOrderFacts(reg: Registry, ids: seq<nat>, records: seq<Timer>)
    requires WellKeyed(reg) && |ids| == |records|
    requires forall i :: 0 <= i < |ids| ==> ids[i] in reg && records[i] == reg[ids[i]]
    requires forall i, j :: 0 <= i < j < |ids| ==> ids[i] < ids[j]
    requires forall k :: k in reg ==> k in ids
    ensures DistinctIds(records)
    ensures forall i :: 0 <= i < |records| ==> records[i].id in reg && reg[records[i].id] == records[i]
    ensures forall k :: k in reg ==> reg[k] in records
  {
    forall i, j | 0 <= i < j < |records| ensures records[i].id != records[j].id {
      assert records[i].id == ids[i] && records[j].id == ids[j];
    }
    forall k | k in reg ensures reg[k] in records {
      var i :| 0 <= i < |ids| && ids[i] == k;
      assert records[i] == reg[k];
    }
  }

  /** A record after the rewrite: new id, creation stamp zeroed. */
  function Relabel(t: Timer, id: nat): Timer
  {
    t.(id := id, createdAt := 0)
  }

  /** The write-back loop `clock.timers[id] = timer`: the i-th record is
      stored, relabelled, under the i-th id; keys not written keep their
      record. */
  function WriteBack(reg: Registry, ids: seq<nat>, records: seq<Timer>): (r: Registry)
    requires |ids| == |records|
    requires forall i, j :: 0 <= i < j < |ids| ==> ids[i] != ids[j]
    requires forall k :: k in ids ==> k in reg
    ensures r.Keys == reg.Keys
    ensures forall i :: 0 <= i < |ids| ==> r[ids[i]] == Relabel(records[i], ids[i])
    ensures forall k :: k in reg && k !in ids ==> r[k] == reg[k]
    decreases |ids|
  {
    if ids == [] then reg
    else
      var r := WriteBack(reg[ids[0] := Relabel(records[0], ids[0])], ids[1..], records[1..]);
      assert forall i :: 0 < i < |ids| ==> ids[i] == ids[1..][i - 1];
      assert ids[0] !in ids[1..];
      r
  }

  /** `shakeTimers(clock)`: the i-th record in sorted order receives the i-th
      smallest original id and a zero creation stamp, and is stored under its
      new id. Every key is rewritten, so nothing of the old registry is left. */
  function ShakeTimers(reg: Registry): (r: Registry)
    requires WellKeyed(reg)
    ensures r.Keys == reg.Keys
    ensures WellKeyed(r)
    ensures forall k :: k in r ==> r[k].createdAt == 0
  {
    var ids := SortedKeys(reg.Keys);
    var order := ShakeOrder(reg);
    var r := WriteBack(reg, ids, order);
    assert forall k :: k in r ==> r[k].id == k && r[k].createdAt == 0 by {
      forall k | k in r ensures r[k].id == k && r[k].createdAt == 0 {
        var i :| 0 <= i < |ids| && ids[i] == k;
      }
    }
    r
  }

  /** The i-th smallest key holds the i-th record of the sorted order. */
  lemma ShakeWrites(reg: Registry, i: nat)
    requires WellKeyed(reg) && i < |reg|
    ensures var ids := SortedKeys(reg.Keys);
      ids[i] in ShakeTimers(reg) && ShakeTimers(reg)[ids[i]] == Relabel(ShakeOrder(reg)[i], ids[i])
  {
  }

  /** The first position of a timer with the given id. */
  function Position(s: seq<Timer>, id: nat): (i: nat)
    requires exists j :: 0 <= j < |s| && s[j].id == id
    ensures i < |s| && s[i].id == id
  {
    if s[0].id == id then 0
    else
      assert exists j :: 0 <= j < |s[1..]| && s[1..][j].id == id by {
        var j :| 0 <= j < |s| && s[j].id == id;
        assert s[1..][j - 1] == s[j];
      }
      1 + Position(s[1..], id)
  }

  /** Every record of the registry occurs in the sorted order. */
  lemma InShakeOrder(reg: Registry, k: nat)
    requires WellKeyed(reg) && k in reg
    ensures exists j :: 0 <= j < |ShakeOrder(reg)| && ShakeOrder(reg)[j].id == k
  {
    var records := KeyOrder(reg);
    assert reg[k] in multiset(records);
    assert reg[k] in multiset(ShakeOrder(reg));
    var j :| 0 <= j < |ShakeOrder(reg)| && ShakeOrder(reg)[j] == reg[k];
  }

  /** Every record of the sorted order is the registry's record under its id. */
  lemma ShakeOrderFromRegistry(reg: Registry, j: nat)
    requires WellKeyed(reg) && j < |reg|
    ensures ShakeOrder(reg)[j].id in reg
    ensures reg[ShakeOrder(reg)[j].id] == ShakeOrder(reg)[j]
  {
    var records := KeyOrder(reg);
    var t := ShakeOrder(reg)[j];
    assert t in multiset(records);
    var m :| 0 <= m < |records| && records[m] == t;
  }

  /** The key the tie-breaker gives to the timer that was stored under `k`. */
  function NewKey(reg: Registry, k: nat): nat
    requires WellKeyed(reg) && k in reg
  {
    InShakeOrder(reg, k);
    SortedKeys(reg.Keys)[Position(ShakeOrder(reg), k)]
  }

  /** Where `NewKey` comes from: the record under `k` stands at some position
      of the sorted order, and its new key is the id of that rank. */
  lemma NewKeyRank(reg: Registry, k: nat) returns (i: nat)
    requires WellKeyed(reg) && k in reg
    ensures i < |reg| && i < |ShakeOrder(reg)| && i < |SortedKeys(reg.Keys)|
    ensures ShakeOrder(reg)[i] == reg[k]
    ensures NewKey(reg, k) == SortedKeys(reg.Keys)[i]
  {
    InShakeOrder(reg, k);
    i := Position(ShakeOrder(reg), k);
    ShakeOrderFromRegistry(reg, i);
  }

  /** A new key is one of the registry's keys. */
  lemma NewKeyIsKey(reg: Registry, k: nat)
    requires WellKeyed(reg) && k in reg
    ensures NewKey(reg, k) in reg
  {
    var i := NewKeyRank(reg, k);
    assert SortedKeys(reg.Keys)[i] in SortedKeys(reg.Keys);
  }

  /** Nothing but the id and the creation stamp changes: the record that was
      under `k` now sits under `NewKey(reg, k)` with the same due time,
      immediate flag and callback, a zero creation stamp, and its new id. */
  lemma ShakeMovesRecord(reg: Registry, k: nat)
    requires WellKeyed(reg) && k in reg
    ensures NewKey(reg, k) in ShakeTimers(reg)
    ensures ShakeTimers(reg)[NewKey(reg, k)] == Relabel(reg[k], NewKey(reg, k))
  {
    var i := NewKeyRank(reg, k);
    ShakeWrites(reg, i);
  }

  /** The sorted order holds each id once. */
  lemma ShakeOrderDistinct(reg: Registry, i: nat, j: nat)
    requires WellKeyed(reg) && i < |reg| && j < |reg|
    ensures ShakeOrder(reg)[i].id == ShakeOrder(reg)[j].id <==> i == j
  {
    var s := ShakeOrder(reg);
    if i != j && s[i].id == s[j].id {
      ShakeOrderFromRegistry(reg, i);
      ShakeOrderFromRegistry(reg, j);
      ShakesBeforeIsStrictOrder(s[i], s[j], s[i]);
    }
  }

  /** Distinct timers get distinct new keys. */
  lemma NewKeyInjective(reg: Registry, a: nat, b: nat)
    requires WellKeyed(reg) && a in reg && b in reg
    ensures NewKey(reg, a) == NewKey(reg, b) <==> a == b
  {
    var ids := SortedKeys(reg.Keys);
    var ia := NewKeyRank(reg, a);
    var ib := NewKeyRank(reg, b);
    if ia < ib {
      assert ids[ia] < ids[ib];
    } else if ib < ia {
      assert ids[ib] < ids[ia];
    } else {
      assert reg[a].id == reg[b].id;
    }
  }

  /** Every key of the shaken registry is the new key of some timer. */
  lemma NewKeySurjective(reg: Registry, n: nat)
    requires WellKeyed(reg) && n in reg
    ensures exists k :: k in reg && NewKey(reg, k) == n
  {
    var ids := SortedKeys(reg.Keys);
    var s := ShakeOrder(reg);
    var i :| 0 <= i < |ids| && ids[i] == n;
    ShakeOrderFromRegistry(reg, i);
    var k := s[i].id;
    var j := NewKeyRank(reg, k);
    ShakeOrderDistinct(reg, i, j);
  }

  /** The new ids follow the sort exactly: the timer first under `a` gets a
      smaller new id than the one first under `b` if and only if the
      comparator puts it first. */
  lemma ShakeOrderIsSortOrder(reg: Registry, a: nat, b: nat)
    requires WellKeyed(reg) && a in reg && b in reg
    ensures NewKey(reg, a) < NewKey(reg, b) <==> ShakesBefore(reg[a], reg[b])
  {
    var ids := SortedKeys(reg.Keys);
    var s := ShakeOrder(reg);
    var ia := NewKeyRank(reg, a);
    var ib := NewKeyRank(reg, b);
    ShakesBeforeIsStrictOrder(s[ia], s[ib], s[ia]);
    if ia < ib {
      assert ids[ia] < ids[ib];
      assert ShakesBefore(s[ia], s[ib]);
    } else if ib < ia {
      assert ids[ib] < ids[ia];
      assert ShakesBefore(s[ib], s[ia]);
    }
  }

  /** Due time and the immediate class keep their order, and same-instant
      ties of the same class are reversed: the later creation stamp, then the
      larger original id, gets the smaller new id. */
  lemma ShakeReversesTies(reg: Registry, a: nat, b: nat)
    requires WellKeyed(reg) && a in reg && b in reg
    ensures reg[a].callAt < reg[b].callAt ==> NewKey(reg, a) < NewKey(reg, b)
    ensures reg[a].callAt == reg[b].callAt && reg[a].immediate && !reg[b].immediate
            ==> NewKey(reg, a) < NewKey(reg, b)
    ensures (reg[a].callAt == reg[b].callAt && reg[a].immediate == reg[b].immediate
             && reg[a].createdAt > reg[b].createdAt) ==> NewKey(reg, a) < NewKey(reg, b)
    ensures (reg[a].callAt == reg[b].callAt && reg[a].immediate == reg[b].immediate
             && reg[a].createdAt == reg[b].createdAt && a > b) ==> NewKey(reg, a) < NewKey(reg, b)
  {
    ShakeOrderIsSortOrder(reg, a, b);
  }

  /** The fake clock's own firing order: due time, immediate first, then
      creation stamp and id ascending (the order of lolex's `compareTimers`,
      to which the comment on the comparator refers; lolex itself is not part
      of this model). */
  predicate FiresBefore(a: Timer, b: Timer)
  {
    || a.callAt < b.callAt
    || (a.callAt == b.callAt && a.immediate && !b.immediate)
    || (a.callAt == b.callAt && a.immediate == b.immediate && a.createdAt < b.createdAt)
    || (a.callAt == b.callAt && a.immediate == b.immediate && a.createdAt == b.createdAt && a.id < b.id)
  }

  /** The decimal digit character of a digit. */
  function DigitChar(d: nat): (c: char)
    requires d < 10
    ensures '0' <= c <= '9'
    ensures c as int - '0' as int == d
  {
    ('0' as int + d) as char
  }

  /** The number a string of decimal digits denotes, most significant digit
      first. */
  function DigitsValue(s: string): int
  {
    if s == [] then 0 else 10 * DigitsValue(s[..|s| - 1]) + (s[|s| - 1] as int - '0' as int)
  }

  /** The key string `Object.keys` yields for an integer key: the canonical
      decimal of `n`, with no leading zero. */
  function DecimalString(n: nat): (s: string)
    ensures |s| >= 1
    ensures n < 10 <==> |s| == 1
    ensures forall i :: 0 <= i < |s| ==> '0' <= s[i] <= '9'
    ensures DigitsValue(s) == n
    ensures |s| > 1 ==> s[0] != '0'
  {
    if n < 10 then [DigitChar(n)]
    else
      var s := DecimalString(n / 10) + [DigitChar(n % 10)];
      assert s[..|s| - 1] == DecimalString(n / 10);
      s
  }

  /** JavaScript's `<` on two strings: code unit by code unit, and a proper
      prefix comes first. */
  predicate StringLess(a: string, b: string)
  {
    if a == [] then b != []
    else if b == [] then false
    else if a[0] != b[0] then a[0] < b[0]
    else StringLess(a[1..], b[1..])
  }

  /** The clock's firing order as it meets the ids written back by the shake
      in the source: those ids are the key strings of `Object.keys`, so the
      final tie on ids compares strings. */
  predicate FiresBeforeAsWritten(a: Timer, b: Timer)
    ensures !(a.callAt == b.callAt && a.immediate == b.immediate && a.createdAt == b.createdAt) ==>
      (FiresBeforeAsWritten(a, b) <==> FiresBefore(a, b))
  {
    || a.callAt < b.callAt
    || (a.callAt == b.callAt && a.immediate && !b.immediate)
    || (a.callAt == b.callAt && a.immediate == b.immediate && a.createdAt < b.createdAt)
    || (a.callAt == b.callAt && a.immediate == b.immediate && a.createdAt == b.createdAt
        && StringLess(DecimalString(a.id), DecimalString(b.id)))
  }

  /** In a registry of two timers, the one the sort puts first takes the
      smaller key and the other the larger. */
  lemma TwoTimerShake(reg: Registry, a: nat, b: nat)
    requires WellKeyed(reg) && reg.Keys == {a, b} && a < b
    ensures ShakesBefore(reg[a], reg[b]) != ShakesBefore(reg[b], reg[a])
    ensures ShakesBefore(reg[b], reg[a]) ==> NewKey(reg, b) == a && NewKey(reg, a) == b
    ensures ShakesBefore(reg[a], reg[b]) ==> NewKey(reg, a) == a && NewKey(reg, b) == b
  {
    var na := NewKey(reg, a);
    var nb := NewKey(reg, b);
    ShakesBeforeIsStrictOrder(reg[a], reg[b], reg[a]);
    NewKeyIsKey(reg, a);
    NewKeyIsKey(reg, b);
    InPair(na, reg.Keys, a, b);
    InPair(nb, reg.Keys, a, b);
    if ShakesBefore(reg[b], reg[a]) {
      assert nb < na by {
        ShakeOrderIsSortOrder(reg, b, a);
      }
    } else {
      assert na < nb by {
        ShakeOrderIsSortOrder(reg, a, b);
      }
    }
  }

  /** A member of a two-element set is one of the two. */
  lemma InPair(x: nat, s: set<nat>, a: nat, b: nat)
    requires s == {a, b} && x in s
    ensures x == a || x == b
  {
  }

  /** After a shake the clock fires the timers in the tie-breaker's sort
      order: with every creation stamp zero it falls back to the new ids. */
  lemma ShakenFiringOrder(reg: Registry, a: nat, b: nat)
    requires WellKeyed(reg) && a in reg && b in reg
    ensures var r := ShakeTimers(reg);
      NewKey(reg, a) in r && NewKey(reg, b) in r &&
      (FiresBefore(r[NewKey(reg, a)], r[NewKey(reg, b)]) <==> ShakesBefore(reg[a], reg[b]))
  {
    ShakeMovesRecord(reg, a);
    ShakeMovesRecord(reg, b);
    ShakeOrderIsSortOrder(reg, a, b);
    ShakeOrderIsSortOrder(reg, b, a);
    NewKeyInjective(reg, a, b);
  }

  /** Of two timers due at the same instant in the same class, the one
      scheduled later fires first once the registry has been shaken, where
      without the shake it would fire second. */
  lemma LastScheduledFiresFirst(reg: Registry, a: nat, b: nat)
    requires WellKeyed(reg) && a in reg && b in reg
    requires reg[a].callAt == reg[b].callAt && reg[a].immediate == reg[b].immediate
    requires reg[a].createdAt < reg[b].createdAt
    ensures FiresBefore(reg[a], reg[b])
    ensures var r := ShakeTimers(reg);
      NewKey(reg, a) in r && NewKey(reg, b) in r &&
      FiresBefore(r[NewKey(reg, b)], r[NewKey(reg, a)])
  {
    ShakenFiringOrder(reg, b, a);
  }

  /** A second shake, with no new timers in between, restores the relative
      firing order the clock had before the first: of any two timers, the
      one that fired first originally fires first again. It does not restore
      keys, ids or creation stamps, so it is no "unshake" in the sense of the
      comment above `shakeTimers`. */
  lemma ShakeTwiceRestoresOrder(reg: Registry, a: nat, b: nat)
    requires WellKeyed(reg) && a in reg && b in reg
    ensures var r1 := ShakeTimers(reg);
      var a1 := NewKey(reg, a);
      var b1 := NewKey(reg, b);
      a1 in r1 && b1 in r1 &&
      var r2 := ShakeTimers(r1);
      var a2 := NewKey(r1, a1);
      var b2 := NewKey(r1, b1);
      a2 in r2 && b2 in r2 &&
      (FiresBefore(r2[a2], r2[b2]) <==> FiresBefore(reg[a], reg[b]))
  {
    var r1 := ShakeTimers(reg);
    var a1 := NewKey(reg, a);
    var b1 := NewKey(reg, b);
    ShakeMovesRecord(reg, a);
    ShakeMovesRecord(reg, b);
    ShakeOrderIsSortOrder(reg, a, b);
    ShakeOrderIsSortOrder(reg, b, a);
    NewKeyInjective(reg, a, b);
    ShakenFiringOrder(r1, a1, b1);
  }
}

=== FILE: wrappers.dfy ===
/** Optional values: the model's stand-in for a JavaScript function that may
    return `undefined` instead of a result. */
module Wrappers {

  datatype Option<+T> = None | Some(value: T)

}
